=== FILE: README.md ===
# Account verification service — Dafny model

This project models the account-verification core of a small Flask web API
(`api.py`, the live code from line 221 on). Four request handlers act on two
document collections keyed by username:

- `users`: the account documents (username, password hash, email, verified flag);
- `verification_codes`: one code document per username (username, code, expiry).

The handlers are:

- **signup**: creates an unverified user and a fresh code, and mails the code;
- **verify_email**: checks a submitted code and its expiry, then sets `verified`;
- **resend_verification**: replaces the code document of an existing user and mails the new code;
- **login**: checks the password and reports the verified flag.

Each handler is a pure Dafny function from a `Store.State` (the two
collections as maps, plus an outbox of sent mails) and the request fields to
a `Store.Response` (the new state and an `Outcome`). The environment comes in
as parameters:

- the current time `now`, as whole seconds;
- the drawn code number, required to lie in 100000..999999;
- the password hash produced at signup;
- the hashing library's check `check(hash, password)`, an arbitrary total function.

Signup requires that the check accepts its hash for the password whenever
the password is non-empty. The hashing library refuses to hash an empty
password (`api.py:290` raises), so signup with an empty password fails after
the duplicate check and before any write; the model reports this as the
outcome `EmptyPasswordRefused` and leaves the state unchanged.

Files:

- `code_generator.dfy` — module `CodeGenerator`. A drawn number becomes its
  decimal text. Proved: the text is six digits with no leading zero, it reads
  back as the number, and the set of code texts is exactly the set of draws.
- `store.dfy` — module `Store`. Documents, state, outcomes, the verification
  mail, and the read of the verified flag with its default.
- `handlers.dfy` — module `Handlers`. The four handlers. Each contract gives
  the outcome as a condition on the inputs and states what changes in each
  collection and what stays untouched.
- `properties.dfy` — module `AccountProperties`. It defines request
  sequences, the store invariant kept by every handler, and the monotonicity
  of the verified flag. It also proves facts that relate several calls:
  idempotent verification, a resend superseding the old code, login hiding
  whether an account exists, and the end-to-end flows.

Two behaviours of the code are modelled as written:

- Signup stores the username as the email (`api.py:282`): it reads the
  `username` field twice, and its duplicate message "Email already
  exists!" (`api.py:288`) likewise treats the username as the email. The
  verification mail therefore goes to the username.
- The expiry test is `now > expires_at` (`api.py:317`), so a code is still
  accepted at the second it expires.

A successful verification does not delete the code document
(`api.py:320-325`). The same code keeps verifying until it expires or is
replaced.

## Model

| member | source | states |
|---|---|---|
| CodeGenerator.GenerateCode | api.py:275-276 | an issued code is six decimal digits, the first not zero, and its decimal value is the drawn number |
| CodeGenerator.DecimalRoundTrip | api.py:276 | reading back the decimal text of any non-negative integer gives that integer |
| CodeGenerator.DecimalLength | api.py:276 | a number between 10^k and 10^(k+1) is written with exactly k+1 characters |
| CodeGenerator.GenerateCodeInjective | api.py:275-276 | two draws give the same code text exactly when they are the same number |
| CodeGenerator.CodeTextIsGenerated | api.py:275-276 | every six-digit text without a leading zero is the code of exactly one draw in 100000..999999 |
| Store.VerifiedFlag | api.py:359 | the flag login reads is true exactly when the document holds verified = true; a missing field reads as false |
| Handlers.FreshRecord | api.py:298-304 | a newly written code document is keyed by the username, holds the drawn number as a six-digit code, and expires 600 seconds after now |
| Handlers.Signup | api.py:278-307 | DuplicateAccount exactly when the username has a user document; EmptyPasswordRefused exactly when it has none and the password is empty; after either, nothing changes; otherwise the user is stored with the given hash, email equal to the username and verified false, a fresh code record replaces any old one, one mail to the username carries the code, and no other username's documents change |
| Handlers.VerifyEmail | api.py:309-327 | CodeExpired exactly when the record holds the submitted code and now is past the expiry; Verified exactly when it holds the code, now is at or before the expiry and the user exists; every failure leaves the state unchanged; success sets only that user's verified flag and keeps the code record |
| Handlers.ResendVerification | api.py:329-349 | UserNotFound with no change exactly when the user is missing; otherwise, whatever the verified flag, users are unchanged, the code record is replaced by a fresh one, other records are untouched, and the code is mailed to the stored email |
| Handlers.Login | api.py:351-363 | never changes state; InvalidCredentials exactly when the user is missing or the check rejects the password; otherwise the outcome's isVerified equals the stored flag |
| AccountProperties.StepKeepsWellFormed | api.py:278-363 | each handler keeps the store invariant: documents under their own username, a verified field on every user, every code six-digit, and no code record without a user |
| AccountProperties.RunKeepsWellFormed | api.py:278-363 | any sequence of requests keeps the store invariant |
| AccountProperties.StepUsersEvolve | api.py:284-325 | no handler deletes a user document, changes its username, hash or email, or turns verified from true to false |
| AccountProperties.RunUsersEvolve | api.py:284-325 | over any sequence of requests user documents persist with the same credentials and their verified flags never revert |
| AccountProperties.VerifiedNeverReverts | api.py:291-296 | a user who is verified stays present and verified after any sequence of requests |
| AccountProperties.InvalidCodeMeansNoMatch | api.py:314-327 | in a store satisfying the invariant, verification answers InvalidCode exactly when no record holds the submitted code |
| AccountProperties.ExpiryBoundary | api.py:316-318 | with a matching code, verification succeeds at the expiry second and is refused as expired, with no change, one second later |
| AccountProperties.VerifyIdempotent | api.py:320-325 | repeating a successful verification with the same inputs succeeds again and leaves the state as the first call left it |
| AccountProperties.ResendSupersedesOldCode | api.py:339-346 | after a resend, a different old code is refused as invalid and the new code is accepted until its expiry |
| AccountProperties.ResendKeepsNoHistory | api.py:341-346 | the code record a resend writes does not depend on the record it replaces |
| AccountProperties.LoginHidesAccountExistence | api.py:356-363 | a missing user and a user whose hash rejects the password give the same InvalidCredentials answer |
| AccountProperties.EmptyPasswordSignupWritesNothing | api.py:290-306 | a signup for a new username with an empty password is refused before any write: no user, no code record, no mail |
| AccountProperties.SecondSignupRejected | api.py:284-288 | registering a username twice fails the second time and leaves the first account's documents as they were |
| AccountProperties.RegisterVerifyLogin | api.py:278-363 | after signup, login reports unverified, a wrong code is refused without change, the mailed code is accepted up to its expiry, and login then reports verified |
| AccountProperties.ExpireResendVerify | api.py:298-349 | a code one second or more past expiry is refused as expired; after a resend the newly mailed code is accepted until its own expiry |

## Left out

- The `/ask` endpoint (`api.py:249-262`) forwards a prompt to an external text-generation service. It has no logic or state.
- Mail transport (`api.py:264-273`) is reduced to appending a `Notice` to the outbox. Delivery is not modelled, and neither is a transport failure that would abort a handler after its writes.
- The document-store client, Flask routing, CORS, JSON parsing and HTTP status codes are plumbing. Each message/status pair becomes an `Outcome` constructor.
- Handlers.Signup, Handlers.VerifyEmail, Handlers.ResendVerification and Handlers.Login: the document store accepts only valid document IDs as keys. A username with an odd number of `/`, or with an empty segment between slashes, or an ID such as `.`, `..` or `__x__`, is refused by the store client, so in the source every handler raises before any write when given such a username. A username with an even number of `/` and no empty segment names a distinct document in a subcollection and behaves like any other key, so the model is exact for it. The model accepts every string as a key, because the store client's rules are not part of this model.
- Password hashing is not modelled beyond its refusal of an empty password. The salted hash is a signup parameter, and the hash check is the function parameter `check`.
- `random.randint` and `time.time()` become parameters. Time is whole seconds rather than a float.
- Requests with a missing field (a `None` username) are not modelled. The submitted code is always a string; a JSON number never equals the stored text, so it would be refused as an invalid code.
- An existing document with no fields counts as absent for verify, resend and login, which test the document's dictionary for truthiness (`api.py:321-322`, `api.py:334-336`, `api.py:357-358`); signup tests `exists` (`api.py:286-287`) and so refuses such a document as a duplicate. The model's documents always carry all their fields, so this difference does not arise in it. A stored user without `email` or `password` would make the source raise, and that is not modelled either.
- The commented-out file-backed implementation (`api.py:1-218`) is dead code.
- Concurrent requests and last-write-wins races are out of scope: the model runs requests one at a time.

=== FILE: code_generator.dfy ===
/** Verification codes.

    The service draws a number uniformly from 100000..999999 and stores its
    decimal text. The draw itself is the caller's business (it is passed in);
    this module renders a drawn number as text, reads text back as a number,
    and proves that every code it produces is exactly six digits with no
    leading zero and reads back as the number it came from.
 */
module CodeGenerator {

  /** Inclusive bounds of the draw. */
  const MinCode := 100000
  const MaxCode := 999999

  /** Number of characters of every issued code. */
  const CodeLength := 6

  predicate InCodeRange(n: int) {
    MinCode <= n <= MaxCode
  }

  predicate IsDigit(c: char) {
    '0' <= c <= '9'
  }

  predicate AllDigits(s: string) {
    forall i :: 0 <= i < |s| ==> IsDigit(s[i])
  }

  /** The shape every issued code has: six decimal digits, the first not zero. */
  predicate IsCodeText(s: string) {
    |s| == CodeLength && AllDigits(s) && s[0] != '0'
  }

  function DigitValue(c: char): (d: nat)
    requires IsDigit(c)
    ensures d < 10
  {
    (c as int) - ('0' as int)
  }

  function DigitChar(d: nat): (c: char)
    requires d < 10
    ensures IsDigit(c)
    ensures DigitValue(c) == d
    ensures c == '0' <==> d == 0
  {
    (('0' as int) + d) as char
  }

  /** The decimal text of a non-negative integer, most significant digit
      first, in the usual decimal notation with no leading zeros. */
  function DecimalString(n: nat): (s: string)
    ensures |s| >= 1
    ensures AllDigits(s)
    ensures s[0] == '0' <==> n == 0
  {
    if n < 10 then [DigitChar(n)] else DecimalString(n / 10) + [DigitChar(n % 10)]
  }

  /** The number a string of decimal digits denotes. */
  function DecimalValue(s: string): (v: nat)
    requires AllDigits(s)
  {
    if |s| == 0 then 0 else DecimalValue(s[..|s| - 1]) * 10 + DigitValue(s[|s| - 1])
  }

  function Pow10(k: nat): (p: nat)
    ensures p >= 1
  {
    if k == 0 then 1 else 10 * Pow10(k - 1)
  }

  /** Reading the text of n gives back n. */
  lemma {:induction false} DecimalRoundTrip(n: nat)
    ensures DecimalValue(DecimalString(n)) == n
  {
    var s := DecimalString(n);
    if n >= 10 {
      var p := DecimalString(n / 10);
      assert s == p + [DigitChar(n % 10)];
      assert s[..|s| - 1] == p;
      DecimalRoundTrip(n / 10);
    }
  }

  /** A number with k + 1 digits is written with exactly k + 1 characters. */
  lemma {:induction false} DecimalLength(n: nat, k: nat)
    requires Pow10(k) <= n < Pow10(k + 1)
    ensures |DecimalString(n)| == k + 1
  {
    if k > 0 {
      assert 10 * Pow10(k - 1) <= n < 10 * Pow10(k);
      DecimalLength(n / 10, k - 1);
    }
  }

  /** The code text for a number drawn from MinCode..MaxCode: its decimal
      text. */
  function GenerateCode(n: int): (s: string)
    requires InCodeRange(n)
    ensures IsCodeText(s)
    ensures DecimalValue(s) == n
  {
    assert Pow10(5) == MinCode && Pow10(6) == MaxCode + 1;
    DecimalLength(n, 5);
    DecimalRoundTrip(n);
    DecimalString(n)
  }

  /** Different draws give different codes, so the text of a code identifies
      the draw it came from. */
  lemma GenerateCodeInjective(a: int, b: int)
    requires InCodeRange(a) && InCodeRange(b)
    ensures GenerateCode(a) == GenerateCode(b) <==> a == b
  {
  }

  /** Every six-digit text with a non-zero first digit is the code of some
      draw: the range of the draw is exactly the set of code texts. */
  lemma {:induction false} CodeTextIsGenerated(s: string)
    requires IsCodeText(s)
    ensures InCodeRange(DecimalValue(s))
    ensures GenerateCode(DecimalValue(s)) == s
  {
    DecimalValueBounds(s);
    DecimalStringOfValue(s);
  }

  /** A digit string of length k + 1 with a non-zero first digit denotes a
      number with exactly k + 1 digits. */
  lemma {:induction false} DecimalValueBounds(s: string)
    requires |s| >= 1 && AllDigits(s) && s[0] != '0'
    ensures Pow10(|s| - 1) <= DecimalValue(s) < Pow10(|s|)
  {
    if |s| > 1 {
      var t := s[..|s| - 1];
      assert t[0] == s[0];
      DecimalValueBounds(t);
    }
  }

  /** Writing out the value of a digit string with no leading zero gives the
      string back. */
  lemma {:induction false} DecimalStringOfValue(s: string)
    requires |s| >= 1 && AllDigits(s) && (s[0] != '0' || |s| == 1)
    ensures DecimalString(DecimalValue(s)) == s
  {
    var v := DecimalValue(s);
    var d := DigitValue(s[|s| - 1]);
    assert DigitChar(d) == s[|s| - 1];
    if |s| == 1 {
      assert DecimalValue(s[..|s| - 1]) == 0;
      assert v == d;
      assert s == [DigitChar(d)];
    } else {
      var t := s[..|s| - 1];
      assert t[0] == s[0];
      DecimalValueBounds(t);
      DecimalStringOfValue(t);
      var w := DecimalValue(t);
      assert v == w * 10 + d;
      assert v >= 10;
      assert v / 10 == w && v % 10 == d;
      assert s == t + [s[|s| - 1]];
    }
  }
}

=== FILE: handlers.dfy ===
/** The four request handlers of the account service.

    Each handler is one read-then-write over the two collections and is
    modelled as a pure function from the store state and the request fields
    to the new state and an outcome. What the handlers take from their
    environment is a parameter: the current time `now` (whole seconds), the
    freshly drawn code number, the password hash computed at signup, and the
    password check `check(hash, password)` of the hashing library.
 */
module Handlers {
  import opened CodeGenerator
  import opened Store

  /** The code record a signup or resend writes for `username`, drawn number
      `code`, at time `now`. */
  function FreshRecord(username: string, code: int, now: int): (rec: CodeRecord)
    requires InCodeRange(code)
    ensures rec.username == username
    ensures IsCodeText(rec.code) && DecimalValue(rec.code) == code
    ensures rec.expiresAt - now == CodeLifetime
  {
    CodeRecord(username, GenerateCode(code), now + CodeLifetime)
  }

  /** `codes` holds, for `username`, exactly the record issued from draw
      `code` at time `now`, whatever was there before. */
  ghost predicate Issued(codes: map<string, CodeRecord>, username: string, code: int, now: int)
    requires InCodeRange(code)
  {
    username in codes && codes[username] == FreshRecord(username, code, now)
  }

  /** Registration. The stored email is the username, not a separate field
      of the request. The hashing library refuses an empty password by
      raising an error, after the duplicate check and before any write; for
      any other password `hash` is the salted hash it computed, so the check
      accepts the pair. */
  function Signup(st: State, username: string, password: string, hash: string,
                  code: int, now: int, check: (string, string) -> bool): (r: Response)
    requires InCodeRange(code)
    requires password != "" ==> check(hash, password)
    ensures r.outcome == DuplicateAccount <==> username in st.users
    ensures r.outcome == EmptyPasswordRefused <==> username !in st.users && password == ""
    ensures r.outcome == Registered <==> username !in st.users && password != ""
    ensures r.outcome != Registered ==> r.state == st
    ensures r.outcome == Registered ==>
      && username in r.state.users
      && r.state.users[username].username == username
      && r.state.users[username].email == username
      && r.state.users[username].passwordHash == hash
      && check(r.state.users[username].passwordHash, password)
      && r.state.users[username].verified == Some(false)
      && AgreeExcept(st.users, r.state.users, username)
      && Issued(r.state.codes, username, code, now)
      && AgreeExcept(st.codes, r.state.codes, username)
      && r.state.outbox == st.outbox + [VerificationMail(username, r.state.codes[username].code)]
  {
    if Get(st.users, username).Some? then
      Response(st, DuplicateAccount)
    else if password == "" then
      Response(st, EmptyPasswordRefused)
    else
      var email := username;
      var users := st.users[username := User(username, hash, email, Some(false))];
      var record := FreshRecord(username, code, now);
      var codes := st.codes[username := record];
      Response(State(users, codes, st.outbox + [VerificationMail(email, record.code)]), Registered)
  }

  /** Whether a code record for `username` exists and holds exactly `code`. */
  predicate CodeMatches(st: State, username: string, code: string) {
    username in st.codes && st.codes[username].code == code
  }

  /** Email verification. The expiry test is strict: a code is still
      accepted at the very second it expires. A matching record is left in
      place after success. */
  function VerifyEmail(st: State, username: string, code: string, now: int): (r: Response)
    ensures r.outcome == Verified || r.outcome == InvalidCode || r.outcome == CodeExpired
    ensures r.outcome == CodeExpired <==>
      CodeMatches(st, username, code) && now > st.codes[username].expiresAt
    ensures r.outcome == Verified <==>
      CodeMatches(st, username, code) && now <= st.codes[username].expiresAt && username in st.users
    ensures r.outcome != Verified ==> r.state == st
    ensures r.outcome == Verified ==>
      && username in r.state.users
      && MarkedVerified(st.users[username], r.state.users[username])
      && AgreeExcept(st.users, r.state.users, username)
      && r.state.codes == st.codes
      && r.state.outbox == st.outbox
  {
    var record := Get(st.codes, username);
    if record.Some? && record.value.code == code then
      if now > record.value.expiresAt then
        Response(st, CodeExpired)
      else
        match Get(st.users, username)
        case Some(user) =>
          Response(st.(users := st.users[username := user.(verified := Some(true))]), Verified)
        case None =>
          Response(st, InvalidCode)
    else
      Response(st, InvalidCode)
  }

  /** Re-issue a code to an existing user, verified or not. The new record
      replaces the old one entirely; the mail goes to the stored email. */
  function ResendVerification(st: State, username: string, code: int, now: int): (r: Response)
    requires InCodeRange(code)
    ensures r.outcome == UserNotFound <==> username !in st.users
    ensures r.outcome != UserNotFound ==> r.outcome == Resent
    ensures username !in st.users ==> r.state == st
    ensures username in st.users ==>
      && r.state.users == st.users
      && Issued(r.state.codes, username, code, now)
      && AgreeExcept(st.codes, r.state.codes, username)
      && r.state.outbox == st.outbox + [VerificationMail(st.users[username].email, r.state.codes[username].code)]
  {
    match Get(st.users, username)
    case None =>
      Response(st, UserNotFound)
    case Some(user) =>
      var record := FreshRecord(username, code, now);
      Response(st.(codes := st.codes[username := record],
                   outbox := st.outbox + [VerificationMail(user.email, record.code)]),
               Resent)
  }

  /** Login. A missing user and a wrong password give the same outcome; with
      the right password the outcome carries the stored verified flag. */
  function Login(st: State, username: string, password: string, check: (string, string) -> bool): (r: Response)
    ensures r.state == st
    ensures r.outcome == InvalidCredentials || r.outcome.LoggedIn?
    ensures r.outcome == InvalidCredentials <==>
      !(username in st.users && check(st.users[username].passwordHash, password))
    ensures r.outcome.LoggedIn? ==>
      username in st.users && r.outcome.isVerified == (st.users[username].verified == Some(true))
  {
    var user := Get(st.users, username);
    if user.Some? && check(user.value.passwordHash, password) then
      if !VerifiedFlag(user.value) then Response(st, LoggedIn(false)) else Response(st, LoggedIn(true))
    else
      Response(st, InvalidCredentials)
  }
}

=== FILE: properties.dfy ===
/** Properties of the account service that span several requests: the
    store invariant every handler keeps, the monotonicity of the verified
    flag over any sequence of requests, and the request sequences the
    service is meant to support (register, verify, log in; let a code
    expire, resend, verify).
 */
module AccountProperties {
  import opened CodeGenerator
  import opened Store
  import opened Handlers

  /** One incoming request with the values its environment supplies: the
      hash and drawn number for signup, the drawn number for resend, and
      the time for every request that looks at or writes an expiry. */
  datatype Request =
    | SignupRequest(username: string, password: string, hash: string, code: int, now: int)
    | VerifyRequest(username: string, submitted: string, now: int)
    | ResendRequest(username: string, code: int, now: int)
    | LoginRequest(username: string, password: string)

  /** What the environment guarantees about a request: drawn numbers lie in
      the draw's range, and the signup hash is accepted for its password
      whenever the password is one the hashing library hashes. */
  predicate Admissible(req: Request, check: (string, string) -> bool) {
    match req
    case SignupRequest(_, password, hash, code, _) => InCodeRange(code) && (password != "" ==> check(hash, password))
    case ResendRequest(_, code, _) => InCodeRange(code)
    case _ => true
  }

  predicate AllAdmissible(reqs: seq<Request>, check: (string, string) -> bool) {
    forall i :: 0 <= i < |reqs| ==> Admissible(reqs[i], check)
  }

  /** Dispatch one request to its handler. */
  function Step(st: State, req: Request, check: (string, string) -> bool): Response
    requires Admissible(req, check)
  {
    match req
    case SignupRequest(u, pw, hash, code, now) => Signup(st, u, pw, hash, code, now, check)
    case VerifyRequest(u, submitted, now) => VerifyEmail(st, u, submitted, now)
    case ResendRequest(u, code, now) => ResendVerification(st, u, code, now)
    case LoginRequest(u, pw) => Login(st, u, pw, check)
  }

  /** Handle the requests one after another, in order. */
  function Run(st: State, reqs: seq<Request>, check: (string, string) -> bool): State
    requires AllAdmissible(reqs, check)
    decreases |reqs|
  {
    if |reqs| == 0 then st
    else
      assert Admissible(reqs[0], check);
      Run(Step(st, reqs[0], check).state, reqs[1..], check)
  }

  /** The empty store the service starts from. */
  const Empty := State(map[], map[], [])

  /** The store invariant: documents sit under their own username, every
      user document carries a verified field, every stored code has the
      shape of an issued code, and no code record exists without a user. */
  ghost predicate WellFormed(st: State) {
    && (forall u :: u in st.users ==> st.users[u].username == u && st.users[u].verified.Some?)
    && (forall u :: u in st.codes ==> st.codes[u].username == u && IsCodeText(st.codes[u].code))
    && st.codes.Keys <= st.users.Keys
  }

  /** How one user document may change: never its name, hash or email, and
      its verified flag only from false to true. */
  ghost predicate UserEvolves(before: User, after: User) {
    && after.username == before.username
    && after.passwordHash == before.passwordHash
    && after.email == before.email
    && (VerifiedFlag(before) ==> VerifiedFlag(after))
  }

  /** No user document disappears, and every one evolves as above. */
  ghost predicate UsersEvolve(st: State, st': State) {
    forall u :: u in st.users ==> u in st'.users && UserEvolves(st.users[u], st'.users[u])
  }

  lemma EmptyWellFormed()
    ensures WellFormed(Empty)
  {
  }

  /** Every handler keeps the store invariant. */
  lemma StepKeepsWellFormed(st: State, req: Request, check: (string, string) -> bool)
    requires WellFormed(st)
    requires Admissible(req, check)
    ensures WellFormed(Step(st, req, check).state)
  {
  }

  /** Every handler lets user documents evolve only as `UserEvolves` allows. */
  lemma StepUsersEvolve(st: State, req: Request, check: (string, string) -> bool)
    requires Admissible(req, check)
    ensures UsersEvolve(st, Step(st, req, check).state)
  {
  }

  lemma UsersEvolveTransitive(a: State, b: State, c: State)
    requires UsersEvolve(a, b) && UsersEvolve(b, c)
    ensures UsersEvolve(a, c)
  {
  }

  /** Any sequence of requests keeps the store invariant. */
  lemma {:induction false} RunKeepsWellFormed(st: State, reqs: seq<Request>, check: (string, string) -> bool)
    requires WellFormed(st)
    requires AllAdmissible(reqs, check)
    ensures WellFormed(Run(st, reqs, check))
    decreases |reqs|
  {
    if |reqs| > 0 {
      assert Admissible(reqs[0], check);
      StepKeepsWellFormed(st, reqs[0], check);
      assert AllAdmissible(reqs[1..], check);
      RunKeepsWellFormed(Step(st, reqs[0], check).state, reqs[1..], check);
    }
  }

  /** Over any sequence of requests, no user document is deleted, none
      changes its credentials, and no verified flag goes back to false:
      signup writes `verified = false` only for a username that has no
      document yet. */
  lemma {:induction false} RunUsersEvolve(st: State, reqs: seq<Request>, check: (string, string) -> bool)
    requires AllAdmissible(reqs, check)
    ensures UsersEvolve(st, Run(st, reqs, check))
    decreases |reqs|
  {
    if |reqs| > 0 {
      assert Admissible(reqs[0], check);
      var mid := Step(st, reqs[0], check).state;
      StepUsersEvolve(st, reqs[0], check);
      assert AllAdmissible(reqs[1..], check);
      RunUsersEvolve(mid, reqs[1..], check);
      UsersEvolveTransitive(st, mid, Run(st, reqs, check));
    }
  }

  /** The verified flag, once true, stays true under any requests. */
  lemma VerifiedNeverReverts(st: State, reqs: seq<Request>, check: (string, string) -> bool, u: string)
    requires AllAdmissible(reqs, check)
    requires u in st.users && VerifiedFlag(st.users[u])
    ensures u in Run(st, reqs, check).users
    ensures VerifiedFlag(Run(st, reqs, check).users[u])
  {
    RunUsersEvolve(st, reqs, check);
  }

  /** In a well-formed store a matching, unexpired code always has a user to
      verify, so InvalidCode means exactly that no record holds the
      submitted code. */
  lemma InvalidCodeMeansNoMatch(st: State, u: string, submitted: string, now: int)
    requires WellFormed(st)
    ensures VerifyEmail(st, u, submitted, now).outcome == InvalidCode <==> !CodeMatches(st, u, submitted)
  {
  }

  /** The expiry comparison is strict: with a matching code and an existing
      user, verification succeeds at the expiry second itself and is refused
      as expired one second later. */
  lemma ExpiryBoundary(st: State, u: string, submitted: string)
    requires CodeMatches(st, u, submitted) && u in st.users
    ensures VerifyEmail(st, u, submitted, st.codes[u].expiresAt).outcome == Verified
    ensures VerifyEmail(st, u, submitted, st.codes[u].expiresAt + 1) == Response(st, CodeExpired)
  {
  }

  /** Repeating a successful verification with the same inputs succeeds
      again and leaves the store as the first call left it. */
  lemma VerifyIdempotent(st: State, u: string, submitted: string, now: int)
    requires VerifyEmail(st, u, submitted, now).outcome == Verified
    ensures var st' := VerifyEmail(st, u, submitted, now).state;
      VerifyEmail(st', u, submitted, now) == Response(st', Verified)
  {
  }

  /** After a resend, a previously held code that differs from the new one
      is refused as invalid, while the new code is accepted until it
      expires. */
  lemma ResendSupersedesOldCode(st: State, u: string, oldCode: string, code: int, now: int, later: int)
    requires InCodeRange(code)
    requires u in st.users
    requires oldCode != GenerateCode(code)
    ensures var st' := ResendVerification(st, u, code, now).state;
      && VerifyEmail(st', u, oldCode, later).outcome == InvalidCode
      && (later <= now + CodeLifetime ==> VerifyEmail(st', u, GenerateCode(code), later).outcome == Verified)
  {
  }

  /** The record a resend writes does not depend on the record it replaces:
      nothing of the previous code survives. */
  lemma ResendKeepsNoHistory(st1: State, st2: State, u: string, code: int, now: int)
    requires InCodeRange(code)
    requires u in st1.users && u in st2.users
    ensures ResendVerification(st1, u, code, now).state.codes[u] == ResendVerification(st2, u, code, now).state.codes[u]
  {
  }

  /** Login cannot tell a missing user from a wrong password: adding a user
      document whose hash rejects the password changes nothing in the
      answer. */
  lemma LoginHidesAccountExistence(st: State, u: string, password: string, check: (string, string) -> bool, doc: User)
    requires u !in st.users
    requires !check(doc.passwordHash, password)
    ensures Login(st, u, password, check).outcome == InvalidCredentials
    ensures Login(st.(users := st.users[u := doc]), u, password, check).outcome == InvalidCredentials
  {
  }

  /** Signup with an empty password is refused after the duplicate check
      and writes nothing: no user, no code record, no mail. */
  lemma EmptyPasswordSignupWritesNothing(st: State, u: string, hash: string, code: int, now: int,
                                         check: (string, string) -> bool)
    requires InCodeRange(code)
    requires u !in st.users
    ensures var r := Signup(st, u, "", hash, code, now, check);
      && r.outcome == EmptyPasswordRefused
      && u !in r.state.users
      && r.state == st
  {
  }

  /** Registering a taken username fails and the first account's documents
      are exactly as the first registration left them. */
  lemma SecondSignupRejected(st: State, u: string, pw1: string, hash1: string, pw2: string, hash2: string,
                             code1: int, code2: int, now1: int, now2: int, check: (string, string) -> bool)
    requires InCodeRange(code1) && InCodeRange(code2)
    requires pw1 != "" && check(hash1, pw1)
    requires pw2 != "" ==> check(hash2, pw2)
    requires u !in st.users
    ensures var first := Signup(st, u, pw1, hash1, code1, now1, check);
      var second := Signup(first.state, u, pw2, hash2, code2, now2, check);
      && first.outcome == Registered
      && second.outcome == DuplicateAccount
      && second.state == first.state
      && second.state.users[u].passwordHash == hash1
  {
  }

  /** Register, log in before verifying, submit a wrong code, submit the
      mailed code, log in again. The code is accepted up to and including
      the second it expires. */
  lemma RegisterVerifyLogin(st: State, u: string, pw: string, hash: string, code: int, now: int,
                            wrong: string, t: int, check: (string, string) -> bool)
    requires InCodeRange(code) && pw != "" && check(hash, pw)
    requires u !in st.users
    requires wrong != GenerateCode(code)
    requires t <= now + CodeLifetime
    ensures var s1 := Signup(st, u, pw, hash, code, now, check).state;
      var s2 := VerifyEmail(s1, u, GenerateCode(code), t);
      && s1.outbox[|s1.outbox| - 1] == VerificationMail(u, GenerateCode(code))
      && Login(s1, u, pw, check).outcome == LoggedIn(false)
      && VerifyEmail(s1, u, wrong, t) == Response(s1, InvalidCode)
      && s2.outcome == Verified
      && Login(s2.state, u, pw, check).outcome == LoggedIn(true)
  {
  }

  /** Let the mailed code expire, resend, and verify with the new code.
      One second past expiry the old code is refused as expired; the new
      code is then accepted until its own expiry. */
  lemma ExpireResendVerify(st: State, u: string, pw: string, hash: string, code1: int, now: int,
                           code2: int, t1: int, t2: int, check: (string, string) -> bool)
    requires InCodeRange(code1) && InCodeRange(code2) && pw != "" && check(hash, pw)
    requires u !in st.users
    requires t1 > now + CodeLifetime
    requires t1 <= t2 <= t1 + CodeLifetime
    ensures var s1 := Signup(st, u, pw, hash, code1, now, check).state;
      var s2 := ResendVerification(s1, u, code2, t1).state;
      && VerifyEmail(s1, u, GenerateCode(code1), t1) == Response(s1, CodeExpired)
      && s2.outbox[|s2.outbox| - 1] == VerificationMail(u, GenerateCode(code2))
      && VerifyEmail(s2, u, GenerateCode(code2), t2).outcome == Verified
  {
  }
}

=== FILE: store.dfy ===
/** The credential store and the values the handlers exchange with it.

    The document store holds two collections keyed by username, `users` and
    `verification_codes`; each is modelled as a map, so a username has at
    most one document in each, and writing a document replaces the previous
    one wholesale. The mail transport is modelled as an outbox to which every
    verification mail is appended.
 */
module Store {

  datatype Option<T> = None | Some(value: T)

  /** A document of the `users` collection. `verified` is optional because a
      document is read with a default of false when the field is missing. */
  datatype User = User(username: string, passwordHash: string, email: string, verified: Option<bool>)

  /** A document of the `verification_codes` collection. `expiresAt` is the
      absolute time, in whole seconds, after which the code is refused. */
  datatype CodeRecord = CodeRecord(username: string, code: string, expiresAt: int)

  /** One message handed to the mail transport. */
  datatype Notice = Notice(recipient: string, subject: string, body: string)

  datatype State = State(
    users: map<string, User>,
    codes: map<string, CodeRecord>,
    outbox: seq<Notice>)

  /** The closed set of results a handler reports; each stands for one
      message/status pair of the HTTP layer. `LoggedIn` covers both the
      gated "please verify your email" answer and the plain success.
      `EmptyPasswordRefused` stands for the server error raised when the
      hashing library refuses to hash an empty password. */
  datatype Outcome =
    | Registered
    | DuplicateAccount
    | EmptyPasswordRefused
    | Verified
    | InvalidCode
    | CodeExpired
    | Resent
    | UserNotFound
    | LoggedIn(isVerified: bool)
    | InvalidCredentials

  datatype Response = Response(state: State, outcome: Outcome)

  /** Seconds a freshly issued code stays acceptable. */
  const CodeLifetime := 600

  const VerificationSubject := "Email Verification"
  const VerificationBodyPrefix := "Your verification code is: "

  /** The mail sent by signup and resend, carrying the code. */
  function VerificationMail(recipient: string, code: string): (n: Notice)
    ensures n.recipient == recipient && n.subject == VerificationSubject
    ensures |n.body| == |VerificationBodyPrefix| + |code|
    ensures n.body[..|VerificationBodyPrefix|] == VerificationBodyPrefix
    ensures n.body[|VerificationBodyPrefix|..] == code
  {
    Notice(recipient, VerificationSubject, VerificationBodyPrefix + code)
  }

  /** A document read: the stored value, or None when there is no document. */
  function Get<V>(collection: map<string, V>, key: string): (r: Option<V>)
    ensures r.Some? <==> key in collection
    ensures r.Some? ==> r.value == collection[key]
  {
    if key in collection then Some(collection[key]) else None
  }

  /** The `verified` field as the login handler reads it: missing means false. */
  function VerifiedFlag(u: User): (b: bool)
    ensures b <==> u.verified == Some(true)
  {
    match u.verified
    case Some(v) => v
    case None => false
  }

  /** Every key other than `key` has the same entry, or the same absence, in
      both maps. */
  ghost predicate AgreeExcept<V>(m: map<string, V>, m': map<string, V>, key: string) {
    forall k :: k != key ==> (k in m <==> k in m') && (k in m ==> m[k] == m'[k])
  }

  /** `after` is `before` with only its verified flag set to true. */
  predicate MarkedVerified(before: User, after: User) {
    && after.username == before.username
    && after.passwordHash == before.passwordHash
    && after.email == before.email
    && after.verified == Some(true)
  }
}
